=== FILE: README.md ===
# Ledger engine of an educational blockchain, modelled in Dafny

This project models the ledger engine of `src/Blockchain/Blockchain.js` in Dafny and proves properties of that model.

- **Transactions** carry a derived hash. They are signed only by the key that owns the source address. A transaction is valid when it is a reward (null source) or when its signature verifies against the hash recomputed from its current fields.
- **Blocks** are hashed at construction and mined by a proof-of-work search. The search increments the nonce until the hash starts with `difficulty` `'0'` characters.
- **Blockchain** is a genesis-rooted, append-only list of blocks. It also holds:
  - a pool of pending transactions;
  - difficulty 2;
  - mining reward 100;
  - an admission pipeline for transactions;
  - the mining step;
  - balance and wallet-history replay;
  - the chain-validity check.

The model is functional. Transactions, blocks and chains are immutable datatypes, and each operation returns a new value. A thrown error is a `Result`/`Outcome` value: `AddTransaction` returns the unchanged chain together with `Fail(e)`.

Foreign code is passed in as a `Primitives` record of function values, so every property holds for every choice of them. That covers:

- the SHA-256 digests of transactions and blocks;
- secp256k1 public-key derivation;
- signing and verification.

A few lemmas assume something about these functions, such as a signature verifying for the digest it signed, or a collision-free digest. Each such assumption is an explicit `requires`. `Date.now()` is a parameter.

Modules:

- `Ledger` (ledger.dfy): the shared datatypes and errors.
- `Transactions` (transaction.dfy): the `Transaction` class.
- `Blocks` (block.dfy): the `Block` class.
- `Chains` (chain.dfy): the `Blockchain` class.
- `Decimal` (decimal.dfy): the decimal text of an integer, as JavaScript's `+` writes it.
- `Findings` (findings.dfy): three defects, modelled as written.
- `Scenarios` (scenario.dfy): an end-to-end transfer.

### Where the model departs from the literal code

Each departure below is also marked by a comment at the point where it happens.

- `addTransaction` calls `transaction.isValid()` (line 140), but the method is named `isTxValid` (line 41). Read literally, every admission throws a TypeError. `Chains.AddTransaction` calls `IsTxValid`.
- `isTxValid` reads `this.fromAddress` (line 49), a property that does not exist. The model uses `addressFrom`.
- `hasValidTxs` sits on `Transaction` but iterates `this.transactions` (lines 53-61). The model defines it over a sequence of transactions.
- The `Block` constructor computes the hash (line 70) before it sets `nonce` (line 71). The model hashes with nonce 0, so a new block is sealed: its stored hash equals its recomputed hash.
- `minePendingTransactions` passes three arguments to the four-parameter constructor (lines 118-122). The balance replay and the validity check both expect the intended arguments, and the model passes those:
  - `index` = the current time;
  - `timestamp` = the current time;
  - `transactions` = the pool plus the reward;
  - `previousHash` = the latest block's hash.

  The literal call is modelled in `Findings`.
- The block hash as written sees only the number of transactions (line 79). The model hashes the full transaction list. The literal reading is modelled in `Findings`.
- `calculateTxHash` hashes `addressFrom + addressTo + amount + timestamp` (line 22), one text with no separator, so an amount and a timestamp can trade digits without changing it. The model's `txDigest` takes the four fields as separate values, the unambiguous encoding the signature check evidently relies on. The literal concatenation is modelled in `Findings`.
- `calculateHash` returns the crypto-js SHA-256 digest object (lines 75-80), not its hex text. Read literally, `this.hash.substring` in the mining loop (line 86) has no such method on that object and throws a TypeError. The `!==` of the validity check (line 198) would compare two distinct objects and always reject a chain with a mined block. The model takes a block digest as its hex string, as both sites evidently mean. The two block-hash findings below are stated under that same reading.

Errors follow the code's `throw` sites:

- Signing a null-source transaction fails with `NotYourWallet`, because a hex string is never `null`. There is no separate "missing source" error.
- The "No signature" error thrown by `isTxValid` propagates out of `addTransaction` unchanged.

## Model

| member | source | states |
|---|---|---|
| `Transactions.NewTransaction` | src/Blockchain/Blockchain.js:10-16 | A new transaction stores its from, to, amount and timestamp. It carries no signature. Its stored hash equals the hash recomputed from those four fields. |
| `Transactions.SignTransaction` | src/Blockchain/Blockchain.js:28-39 | Signing succeeds exactly when the key's public hex is `addressFrom`, and otherwise fails with "not your wallet". A null source is never owned. On success only the signature changes, and it becomes the signature of the hash recomputed from the current fields. |
| `Transactions.IsTxValid` | src/Blockchain/Blockchain.js:41-51 | A null-source transaction is valid. For any other source, a missing or empty signature is exactly the case that throws. Otherwise the result is the verification of the signature against the recomputed hash, never against the stored one. |
| `Transactions.HasValidTxs` | src/Blockchain/Blockchain.js:53-61 | The result is true iff every transaction is valid. Otherwise the result is that of the first transaction that is not valid, which is either false or the thrown error, and every transaction before it is valid. |
| `Transactions.SigningKeepsHash` | src/Blockchain/Blockchain.js:28-39 | Signing leaves the stored transaction hash unchanged, and that hash still agrees with the fields. |
| `Transactions.RewardAlwaysValid` | src/Blockchain/Blockchain.js:42-43 | A null-source transaction is valid whatever its signature slot holds. |
| `Transactions.SignedTransferIsValid` | src/Blockchain/Blockchain.js:28-50 | Assume every signature verifies for the digest it signed and is non-empty. Then a transfer signed by its owner is valid. |
| `Transactions.TxHashCoversFields` | src/Blockchain/Blockchain.js:19-24 | The transaction hash covers from, to, amount and timestamp and nothing else. Transactions that agree on those four fields hash alike, whatever their signatures and stored hashes. Under a collision-free digest only such transactions hash alike. |
| `Transactions.TamperedTransferIsInvalid` | src/Blockchain/Blockchain.js:19-50 | This is stated for the model's four-field digest, not the literal concatenation (see Findings). Assume signatures cannot be forged, the signature is non-empty, and the four-field digest is collision free. Then changing the recipient, the amount or the timestamp of a signed transfer makes it invalid. |
| `Blocks.HashCoversFields` | src/Blockchain/Blockchain.js:74-81 | The block hash covers index, previous hash, timestamp, transactions and nonce, and not the stored hash. Blocks that agree on those fields hash alike. Under a collision-free digest only such blocks hash alike. |
| `Blocks.NewBlock` | src/Blockchain/Blockchain.js:65-72 | A new block stores its four arguments, has nonce 0, and is sealed. |
| `Blocks.Zeros` | src/Blockchain/Blockchain.js:86 | The target prefix has length `d` and every character of it is `'0'`. |
| `Blocks.SolvedMeansLeadingZeros` | src/Blockchain/Blockchain.js:85-87 | The loop's exit test holds iff the hash has at least `d` characters and the first `d` are all `'0'`. The test is `substring` against `d` zeros, and `substring` clamps to the string's length. |
| `Blocks.Step` | src/Blockchain/Blockchain.js:88-89 | One iteration raises the nonce by exactly 1, leaves the content alone, and makes the stored hash the recomputed one. |
| `Blocks.Mine` | src/Blockchain/Blockchain.js:84-91 | A completed search returns a block whose hash is solved and whose content is unchanged. Its nonce is the FIRST nonce from the start whose hash solves the puzzle. With `d = 0` the block is returned unchanged. A sealed block stays sealed. An exhausted search has seen no solving nonce. |
| `Blocks.MineBlock` | src/Blockchain/Blockchain.js:84-91 | The imperative loop finishes exactly when `Mine` does, and then it returns the same block. That block's hash has `d` leading zeros. With `d = 0` the block is unchanged. After any step the block is sealed. |
| `Chains.CreateGenesisBlock` | src/Blockchain/Blockchain.js:102-104 | The genesis block has index 0, the date text "07/07/1999", the text "Genesis Block" as its transactions, previous hash "0" and nonce 0, and it is sealed. |
| `Chains.NewBlockchain` | src/Blockchain/Blockchain.js:95-100 | A new chain holds one block and passes the validity check. Its pool is empty, its difficulty is 2 and its reward is 100. |
| `Chains.GetLatestBlock` | src/Blockchain/Blockchain.js:106-108 | The latest block belongs to the chain, and the chain is its earlier blocks followed by that block. |
| `Chains.IsChainValid` | src/Blockchain/Blockchain.js:188-207 | The loop returns true iff the chain is non-empty, `chain[0]` equals a fresh genesis block, and every later block is sealed and links to its predecessor's hash. The index is never checked. |
| `Chains.GetBalanceOfAddress` | src/Blockchain/Blockchain.js:156-171 | The nested replay loop returns the sum over every block and transaction of `+amount` when the address receives and `-amount` when it sends. Nothing is clamped. |
| `Chains.NetAppend` | src/Blockchain/Blockchain.js:159-167 | The net over two concatenated lists is the sum of their nets. |
| `Chains.BalanceAdditive` | src/Blockchain/Blockchain.js:156-171 | Appending a block adds exactly that block's net to every balance. |
| `Chains.SelfTransferNetsZero` | src/Blockchain/Blockchain.js:161-166 | A transfer from an address to itself, at any position, leaves that address's balance unchanged. |
| `Chains.GetAllTransactionsForWallet` | src/Blockchain/Blockchain.js:173-186 | The nested replay loop returns the order-preserving filter of all the chain's transactions by "sent or received by the address". Its length is at most the total number of transactions. A transaction is in it iff it is in the chain and involves the address. |
| `Chains.FilterAppend` | src/Blockchain/Blockchain.js:176-182 | Filtering distributes over concatenation, so the history keeps chain order. |
| `Chains.FilterSound` | src/Blockchain/Blockchain.js:173-186 | The filter is no longer than its input and holds exactly the input's transactions that involve the address. |
| `Chains.NetOfFilter` | src/Blockchain/Blockchain.js:156-186 | An address's balance is determined by its wallet history alone. |
| `Chains.HistoryAppend` | src/Blockchain/Blockchain.js:173-186 | Appending a block extends every wallet history by that block's matching transactions, placed after all earlier ones. |
| `Chains.AddTransaction` | src/Blockchain/Blockchain.js:139-154 | The checks run in order: signature validity (its own error propagates), both endpoints non-empty, `amount > 0`, and the sender's mined-chain balance covering the amount. Each failure leaves the chain unchanged and gives its own error. Success appends exactly `tx` to the pool. The transaction is admitted if and only if every check passes. An admitted transaction is signed, verified, has a positive amount and is funded. |
| `Chains.NullSourceNeverAdmitted` | src/Blockchain/Blockchain.js:139-145 | A null-source transaction passes the signature check but is always refused as malformed, leaving the chain unchanged. |
| `Chains.PendingDoubleSpend` | src/Blockchain/Blockchain.js:146-151 | The balance check ignores the pool. Two transactions that are each admissible are both admitted in turn, even when together they exceed the sender's balance. |
| `Chains.CandidateBlock` | src/Blockchain/Blockchain.js:111-122 | The block to be mined is sealed and has nonce 0. Its index is the block time and its timestamp is that same time in milliseconds, the intended reading of the three-argument constructor call. It links to the latest block's hash, and its transactions are the pool followed by a reward of `miningReward` from null to the reward address. |
| `Chains.MinePendingTransactions` | src/Blockchain/Blockchain.js:110-130 | Mining completes exactly when the proof-of-work search from the candidate block finds a solving nonce within `fuel` steps. The chain then grows by exactly the block that search returns, and every earlier block is unchanged. That block's nonce is the first one from 0 that solves the puzzle. The new block's index and timestamp are the block time. It links to the old latest hash, is solved at the chain's difficulty and is sealed. Its transactions are the old pool followed by the reward. The pool is then empty. With difficulty 0 mining always completes. |
| `Chains.AppendKeepsValid` | src/Blockchain/Blockchain.js:188-207 | Appending a sealed block that links to the last block keeps a valid chain valid. |
| `Chains.MinePreservesValidity` | src/Blockchain/Blockchain.js:110-130 | Mining keeps a valid chain valid: the new block is sealed and linked to the old latest block, and every earlier block keeps its seal and link. |
| `Chains.MineCreditsMiner` | src/Blockchain/Blockchain.js:110-130 | After mining, every balance has moved by the pool's net for that address. The reward address gains the reward. The null address, the reward's sender, loses it. |
| `Chains.TamperingInvalidates` | src/Blockchain/Blockchain.js:188-207 | Assume the block digest is collision free. Then replacing any block after the genesis by one that keeps the stored hash but differs in any hashed field makes a valid chain invalid. |
| `Chains.TamperedAmountInvalidates` | src/Blockchain/Blockchain.js:188-207 | Assume the block digest is collision free. Then changing the amount of any transaction inside any block after the genesis, without re-mining, makes a valid chain invalid. |
| `Findings.TamperUndetectedAsWritten` | src/Blockchain/Blockchain.js:74-81 | With the hash as written, changing any amount inside any block after the genesis gives a chain that passes the link check if and only if the original does, for every digest function and every genesis. |
| `Findings.CandidateBlockAsWritten` | src/Blockchain/Blockchain.js:118-122 | With the constructor call as written, the new block has previous hash "" and contributes no transactions to a replay. |
| `Findings.MinePendingTransactionsAsWritten` | src/Blockchain/Blockchain.js:110-130 | Mining as written completes exactly when the search from the literal candidate block does, and then appends exactly the block that search returns. That block has previous hash "" and contributes no transactions. |
| `Findings.MiningBreaksLinkAsWritten` | src/Blockchain/Blockchain.js:118-122 | As written, when the latest hash is non-empty, the chain after mining fails the link check, whatever genesis or hash function the check uses. |
| `Findings.MiningCreditsNothingAsWritten` | src/Blockchain/Blockchain.js:118-122 | As written, mining changes no balance: neither the pool nor the reward is recorded. |
| `Decimal.DecRoundTrip` | src/Blockchain/Blockchain.js:22 | Reading back the decimal text that `+` gives an integer returns the integer. |
| `Decimal.DecInjective` | src/Blockchain/Blockchain.js:22 | Two integers have the same decimal text iff they are equal. |
| `Findings.AmountTimestampCollide` | src/Blockchain/Blockchain.js:22 | The texts of amount 1 then timestamp 23 and of amount 12 then timestamp 3 are the same, "123". |
| `Findings.ConcatDigestNotInjective` | src/Blockchain/Blockchain.js:19-24 | For every SHA-256, the digest of the unseparated concatenation is not collision free. |
| `Findings.RewrittenTransferStillValidAsWritten` | src/Blockchain/Blockchain.js:19-50 | Assume a sound scheme. With the digest as written, a signed transfer whose amount and timestamp are rewritten to texts that run together the same way stays valid. |
| `Findings.OneFieldChangesText` | src/Blockchain/Blockchain.js:19-24 | Between hex recipients, changing exactly one of recipient, amount or timestamp changes the text as written. |
| `Findings.OneFieldRewriteDetectedAsWritten` | src/Blockchain/Blockchain.js:19-50 | Assume an unforgeable scheme, a non-empty signature and a collision-free SHA-256. Then, even with the digest as written, changing exactly one of recipient, amount or timestamp of a signed transfer between hex addresses makes it invalid. |
| `Scenarios.TransferScenario` | src/Blockchain/Blockchain.js:110-171 | Assume a sound scheme. Wallet A mines and holds 100, signs a transfer of 50 to B, and the transfer is admitted. After a second mine, A holds 150 and B holds 50. |

## Left out

- Key-pair generation and printing (`src/Blockchain/key.js`) are not modelled. They are I/O around a foreign library.
- SHA-256, secp256k1 and DER encoding are not modelled. They are the function values of `Primitives`. "Sign then verify succeeds" is a stated assumption (`SignaturesVerify`), not a property of the engine.
- Decimal.Dec: writes integers only, always in plain digits. JavaScript switches to exponent notation at 10^21 and also writes fractions; neither is modelled.
- The JSON text encoding is not modelled. Hash inputs are structured values (`Preimage`), and the genesis comparison in `isChainValid` is structural equality of blocks.
- `console.log` calls, including the message printed when the file is loaded, are not modelled. They are output only.
- `Date.now()` is not modelled as a clock. Each reading is a parameter, and mining takes two readings.
- Number semantics of `amount` use unbounded integers. JavaScript doubles are not modelled.
- Blocks.Mine: the search only ends with probability 1, so it is bounded by `fuel` steps. An exhausted search returns `None`. Only the exit postcondition and minimality of the nonce are proved; termination is not.
- Blocks.MineBlock: bounded by the same `fuel` as `Mine`, for the same reason.
- Chains.MinePendingTransactions: returns `None` when mining exhausts `fuel`. The source would still be searching at that point, with the reward already pushed onto the pool.
- Hashing the first block before its nonce is set is not modelled as written. Only the intended order is modelled; see the departures above.

## Findings

| source | as written | input that shows it | evidently intended | confidence | as-written member | corrected member |
|---|---|---|---|---|---|---|
| src/Blockchain/Blockchain.js:79 | `JSON.stringify(this.transactions + this.nonce)` stringifies the array first, so every transaction contributes the same "[object Object]" text and only their number reaches the hash | a valid chain with one mined block; change the amount of its reward transaction; `isChainValid` still returns true | `JSON.stringify(this.transactions) + this.nonce`, so that the hash covers the transaction contents | high; not executed | `Findings.TamperUndetectedAsWritten` | `Chains.TamperedAmountInvalidates` |
| src/Blockchain/Blockchain.js:19-24 | `addressFrom + addressTo + amount + timestamp` joins the four values with no separator, so the amount's digits and the timestamp's digits can trade places without changing the hashed text | a transfer of 1 at timestamp 23, signed; rewrite it to 12 at timestamp 3; `isTxValid` still returns true | an unambiguous encoding of the four fields, such as separated or JSON-encoded values | high; not executed | `Findings.RewrittenTransferStillValidAsWritten` | `Transactions.TamperedTransferIsInvalid` |
| src/Blockchain/Blockchain.js:118-122 | `new Block(Date.now(), pending, latestHash)` fills `index`, `timestamp`, `transactions`, leaving `previousHash = ""` | a fresh chain (genesis hash non-empty); call `minePendingTransactions(a)`; `isChainValid` returns false and `getBalanceOfAddress(a)` is 0 | time as index and timestamp, the pool as transactions, the latest hash as previous hash | high; not executed | `Findings.MiningBreaksLinkAsWritten` | `Chains.MinePreservesValidity` |

=== FILE: block.dfy ===
/** The `Block` class: construction, hashing and proof-of-work mining. */
module Blocks {
  import opened Ledger

  /** How a block's transactions enter its hash. The genesis placeholder
      enters as its text, a transaction list in full. (The source
      stringifies `transactions + nonce`, which keeps only the number of
      transactions; module Findings models that reading.) */
  function BodyOf(p: Payload): Body {
    match p
    case Placeholder(t) => Text(t)
    case Txs(txs) => Full(txs)
  }

  function PreimageOf(b: Block): Preimage {
    Preimage(b.index, b.previousHash, b.timestamp, BodyOf(b.transactions), b.nonce)
  }

  /** `calculateHash`: the digest of the block's current fields. The
      source returns the SHA-256 digest object itself rather than its hex
      text, so the `substring` of the mining loop and the `!==` of the
      validity check would, read literally, act on an object; the model
      takes the digest as its hex string, which is what both evidently
      mean. */
  function CalculateHash(c: Primitives, b: Block): string
  {
    c.blockDigest(PreimageOf(b))
  }

  /** The block digest is collision free. */
  ghost predicate BlockDigestInjective(c: Primitives) {
    forall p, q :: c.blockDigest(p) == c.blockDigest(q) ==> p == q
  }

  /** The stored hash is the hash of the block's current fields. */
  predicate Sealed(c: Primitives, b: Block) {
    b.hash == CalculateHash(c, b)
  }

  /** Two blocks agree on every field that mining leaves alone. */
  predicate SameContent(a: Block, b: Block) {
    a.index == b.index && a.previousHash == b.previousHash
    && a.timestamp == b.timestamp && a.transactions == b.transactions
  }

  /** The hash covers every field but the stored hash itself: blocks that
      agree on index, previous hash, timestamp, transactions and nonce hash
      alike, and under a collision-free digest only such blocks do. */
  lemma HashCoversFields(c: Primitives, a: Block, b: Block)
    ensures SameContent(a, b) && a.nonce == b.nonce ==> CalculateHash(c, a) == CalculateHash(c, b)
    ensures BlockDigestInjective(c) && CalculateHash(c, a) == CalculateHash(c, b) ==>
              SameContent(a, b) && a.nonce == b.nonce
  {
  }

  /** The constructor: stores the fields, sets the nonce to 0 and computes the
      hash. The source computes the hash one line BEFORE assigning the nonce,
      so its first hash is taken over an undefined nonce; the model takes it
      over nonce 0, so that a freshly built block is sealed. */
  function NewBlock(c: Primitives, index: int, timestamp: Stamp, transactions: Payload, previousHash: string): (b: Block)
    ensures b.index == index && b.timestamp == timestamp
    ensures b.transactions == transactions && b.previousHash == previousHash
    ensures b.nonce == 0
    ensures Sealed(c, b)
  {
    var unsealed := Block(index, previousHash, timestamp, transactions, "", 0);
    unsealed.(hash := CalculateHash(c, unsealed))
  }

  /** The string of `d` zero characters, `Array(d + 1).join("0")`. */
  function Zeros(d: nat): (z: string)
    ensures |z| == d
    ensures forall i :: 0 <= i < d ==> z[i] == '0'
  {
    if d == 0 then "" else Zeros(d - 1) + "0"
  }

  /** The loop guard of `mineBlock`, negated: `hash.substring(0, d)` equals
      `d` zeros. `substring` clamps to the string's length, so a hash shorter
      than `d` never satisfies it. */
  predicate Solved(h: string, d: nat) {
    h[..if d <= |h| then d else |h|] == Zeros(d)
  }

  /** The difficulty predicate, character by character. */
  lemma SolvedMeansLeadingZeros(h: string, d: nat)
    ensures Solved(h, d) <==> d <= |h| && forall i :: 0 <= i < d ==> h[i] == '0'
  {
  }

  /** One iteration of the mining loop: `nonce++`, then the hash recomputed. */
  function Step(c: Primitives, b: Block): (r: Block)
    ensures r.nonce == b.nonce + 1
    ensures SameContent(b, r)
    ensures Sealed(c, r)
  {
    var bumped := b.(nonce := b.nonce + 1);
    bumped.(hash := CalculateHash(c, bumped))
  }

  /** The hash the mining loop holds once the nonce has reached `n`: the
      block's own hash before the first step, the recomputed one after. */
  function HashAt(c: Primitives, b: Block, n: nat): string {
    if n == b.nonce then b.hash else CalculateHash(c, b.(nonce := n))
  }

  /** The reference definition of `mineBlock(d)`: step until the hash is
      solved. Mining only terminates with probability 1, so the search is
      given at most `fuel` steps; `None` means they ran out. */
  function Mine(c: Primitives, b: Block, d: nat, fuel: nat): (r: Option<Block>)
    decreases fuel
    ensures d == 0 ==> r == Some(b)
    ensures r.Some? ==> Solved(r.value.hash, d)
    ensures r.Some? ==> SameContent(b, r.value) && b.nonce <= r.value.nonce <= b.nonce + fuel
    ensures r.Some? && r.value.nonce == b.nonce ==> r.value == b
    ensures r.Some? && Sealed(c, b) ==> Sealed(c, r.value)
    ensures r.Some? ==> r.value.hash == HashAt(c, b, r.value.nonce)
    // the nonce found is the first that solves the puzzle
    ensures r.Some? ==> forall n :: b.nonce <= n < r.value.nonce ==> !Solved(HashAt(c, b, n), d)
    ensures r.None? ==> forall n :: b.nonce <= n <= b.nonce + fuel ==> !Solved(HashAt(c, b, n), d)
  {
    if Solved(b.hash, d) then Some(b)
    else if fuel == 0 then None
    else
      var s := Step(c, b);
      var r := Mine(c, s, d, fuel - 1);
      assert forall n :: s.nonce <= n ==> HashAt(c, s, n) == HashAt(c, b, n) by {
        forall n | s.nonce <= n ensures HashAt(c, s, n) == HashAt(c, b, n) {
          assert PreimageOf(s.(nonce := n)) == PreimageOf(b.(nonce := n));
        }
      }
      r
  }

  /** `mineBlock(d)` as the source's loop: while the hash is not solved,
      increment the nonce and recompute the hash. `fuel` bounds the number
      of iterations; `found` is false when they ran out. */
  method MineBlock(c: Primitives, b: Block, d: nat, fuel: nat) returns (found: bool, r: Block)
    ensures found <==> Mine(c, b, d, fuel).Some?
    ensures found ==> Mine(c, b, d, fuel) == Some(r)
    ensures found ==> Solved(r.hash, d) && SameContent(b, r)
    ensures d == 0 ==> found && r == b
    ensures r.nonce > b.nonce ==> Sealed(c, r)
  {
    r := b;
    var k: nat := 0;
    while !Solved(r.hash, d) && k < fuel
      invariant k <= fuel
      invariant r.nonce == b.nonce + k
      invariant k == 0 ==> r == b
      invariant k > 0 ==> Sealed(c, r)
      invariant Mine(c, r, d, fuel - k) == Mine(c, b, d, fuel)
      decreases fuel - k
    {
      r := r.(nonce := r.nonce + 1);
      r := r.(hash := CalculateHash(c, r));
      k := k + 1;
    }
    found := Solved(r.hash, d);
  }
}

=== FILE: chain.dfy ===
/** The `Blockchain` class: a genesis-rooted, append-only list of blocks with
    a pool of pending transactions, difficulty 2 and reward 100. */
module Chains {
  import opened Ledger
  import opened Transactions
  import opened Blocks

  const InitialDifficulty: nat := 2
  const InitialMiningReward: int := 100

  datatype Blockchain = Blockchain(
    chain: seq<Block>,
    difficulty: nat,
    pendingTransactions: seq<Transaction>,
    miningReward: int)

  /** `createGenesisBlock`: index 0, the date text "07/07/1999", the text
      "Genesis Block" in place of transactions, previous hash "0". */
  function CreateGenesisBlock(c: Primitives): (g: Block)
    ensures g.index == 0 && g.previousHash == "0" && g.nonce == 0
    ensures g.timestamp == DateText("07/07/1999") && g.transactions == Placeholder("Genesis Block")
    ensures Sealed(c, g)
  {
    NewBlock(c, 0, DateText("07/07/1999"), Placeholder("Genesis Block"), "0")
  }

  // ---------------------------------------------------------------------
  // Chain validity

  /** The shape `isChainValid` checks, for a given genesis block and a given
      way of recomputing a block's hash: the first block is the genesis,
      every later block's stored hash is its recomputed hash and its
      previous hash is its predecessor's hash. No block's index is checked. */
  predicate Linked(chain: seq<Block>, genesis: Block, hashOf: Block -> string) {
    && |chain| > 0
    && chain[0] == genesis
    && forall i :: 1 <= i < |chain| ==>
         chain[i].hash == hashOf(chain[i]) && chain[i].previousHash == chain[i - 1].hash
  }

  predicate ValidChain(c: Primitives, chain: seq<Block>) {
    Linked(chain, CreateGenesisBlock(c), b => CalculateHash(c, b))
  }

  /** `isChainValid`. The source compares the JSON texts of `chain[0]` and a
      fresh genesis block; the model compares the two blocks structurally.
      An empty chain has no genesis and is invalid. */
  method IsChainValid(c: Primitives, chain: seq<Block>) returns (ok: bool)
    ensures ok <==> ValidChain(c, chain)
    ensures ok ==> |chain| > 0 && chain[0] == CreateGenesisBlock(c)
    ensures ok ==> forall i :: 1 <= i < |chain| ==> Sealed(c, chain[i]) && chain[i].previousHash == chain[i - 1].hash
  {
    if |chain| == 0 || chain[0] != CreateGenesisBlock(c) {
      return false;
    }
    var i := 1;
    while i < |chain|
      invariant 1 <= i <= |chain|
      invariant forall k :: 1 <= k < i ==> Sealed(c, chain[k]) && chain[k].previousHash == chain[k - 1].hash
    {
      if chain[i].hash != CalculateHash(c, chain[i]) {
        return false;
      }
      if chain[i].previousHash != chain[i - 1].hash {
        return false;
      }
      i := i + 1;
    }
    return true;
  }

  /** The constructor: a chain holding only the genesis block. */
  function NewBlockchain(c: Primitives): (bc: Blockchain)
    ensures ValidChain(c, bc.chain) && |bc.chain| == 1
    ensures bc.pendingTransactions == []
    ensures bc.difficulty == 2 && bc.miningReward == 100
  {
    Blockchain([CreateGenesisBlock(c)], InitialDifficulty, [], InitialMiningReward)
  }

  /** `getLatestBlock`. A chain built by this engine is never empty. */
  function GetLatestBlock(bc: Blockchain): (b: Block)
    requires |bc.chain| > 0
    ensures b in bc.chain
    ensures bc.chain == bc.chain[..|bc.chain| - 1] + [b]
  {
    bc.chain[|bc.chain| - 1]
  }

  // ---------------------------------------------------------------------
  // Replay over the chain

  /** The transactions a block contributes to a replay. Iterating the
      genesis block's text yields characters, which have no endpoints and so
      match no address. */
  function TxsOf(b: Block): seq<Transaction> {
    match b.transactions
    case Placeholder(_) => []
    case Txs(txs) => txs
  }

  /** Every transaction of the chain, block order then in-block order. */
  function Flatten(chain: seq<Block>): seq<Transaction> {
    if |chain| == 0 then [] else Flatten(chain[..|chain| - 1]) + TxsOf(chain[|chain| - 1])
  }

  /** What one transaction does to the balance of `a`: the amount is
      subtracted when `a` sends it and added when `a` receives it. */
  function Delta(t: Transaction, a: Addr): int {
    (if t.addressTo == a then t.amount else 0) - (if t.addressFrom == a then t.amount else 0)
  }

  /** The net of a list of transactions for `a`; no clamping. */
  function Net(txs: seq<Transaction>, a: Addr): int {
    if |txs| == 0 then 0 else Net(txs[..|txs| - 1], a) + Delta(txs[|txs| - 1], a)
  }

  function BalanceOf(chain: seq<Block>, a: Addr): int {
    Net(Flatten(chain), a)
  }

  lemma NetSnoc(xs: seq<Transaction>, t: Transaction, a: Addr)
    ensures Net(xs + [t], a) == Net(xs, a) + Delta(t, a)
  {
  }

  lemma {:induction false} NetAppend(xs: seq<Transaction>, ys: seq<Transaction>, a: Addr)
    ensures Net(xs + ys, a) == Net(xs, a) + Net(ys, a)
    decreases |ys|
  {
    if |ys| == 0 {
      assert xs + ys == xs;
    } else {
      var ys' := ys[..|ys| - 1];
      assert (xs + ys)[..|xs + ys| - 1] == xs + ys';
      NetAppend(xs, ys', a);
    }
  }

  lemma FlattenAppend(chain: seq<Block>, b: Block)
    ensures Flatten(chain + [b]) == Flatten(chain) + TxsOf(b)
  {
  }

  /** Appending a block adds exactly that block's net to every balance. */
  lemma BalanceAdditive(chain: seq<Block>, b: Block, a: Addr)
    ensures BalanceOf(chain + [b], a) == BalanceOf(chain, a) + Net(TxsOf(b), a)
  {
    FlattenAppend(chain, b);
    NetAppend(Flatten(chain), TxsOf(b), a);
  }

  /** A transfer from `a` to `a`, wherever it sits, nets zero for `a`. */
  lemma SelfTransferNetsZero(xs: seq<Transaction>, t: Transaction, ys: seq<Transaction>, a: Addr)
    requires t.addressFrom == a && t.addressTo == a
    ensures Net(xs + [t] + ys, a) == Net(xs + ys, a)
  {
    NetAppend(xs + [t], ys, a);
    NetAppend(xs, [t], a);
    NetAppend(xs, ys, a);
    assert Net([t], a) == Net([], a) + Delta(t, a);
  }

  /** The inner loop of `getBalanceOfAddress`: one block's transactions
      applied to a running balance. */
  method ReplayBalance(start: int, txs: seq<Transaction>, address: Addr) returns (balance: int)
    ensures balance == start + Net(txs, address)
  {
    balance := start;
    var j := 0;
    while j < |txs|
      invariant 0 <= j <= |txs|
      invariant balance == start + Net(txs[..j], address)
    {
      var t := txs[j];
      assert txs[..j + 1] == txs[..j] + [t];
      NetSnoc(txs[..j], t, address);
      if t.addressFrom == address {
        balance := balance - t.amount;
      }
      if t.addressTo == address {
        balance := balance + t.amount;
      }
      j := j + 1;
    }
    assert txs[..j] == txs;
  }

  /** `getBalanceOfAddress`: the replay loop over every block and every
      transaction. */
  method GetBalanceOfAddress(chain: seq<Block>, address: Addr) returns (balance: int)
    ensures balance == BalanceOf(chain, address)
  {
    balance := 0;
    var i := 0;
    while i < |chain|
      invariant 0 <= i <= |chain|
      invariant balance == BalanceOf(chain[..i], address)
    {
      balance := ReplayBalance(balance, TxsOf(chain[i]), address);
      assert chain[..i + 1] == chain[..i] + [chain[i]];
      BalanceAdditive(chain[..i], chain[i], address);
      i := i + 1;
    }
    assert chain[..i] == chain;
  }

  /** A transaction touches `a` as sender or receiver. */
  predicate Involves(t: Transaction, a: Addr) {
    t.addressFrom == a || t.addressTo == a
  }

  /** The order-preserving filter of `txs` by `Involves(_, a)`. */
  function Filter(txs: seq<Transaction>, a: Addr): seq<Transaction> {
    if |txs| == 0 then []
    else Filter(txs[..|txs| - 1], a) + (if Involves(txs[|txs| - 1], a) then [txs[|txs| - 1]] else [])
  }

  function WalletHistory(chain: seq<Block>, a: Addr): seq<Transaction> {
    Filter(Flatten(chain), a)
  }

  lemma FilterSnoc(xs: seq<Transaction>, t: Transaction, a: Addr)
    ensures Filter(xs + [t], a) == Filter(xs, a) + (if Involves(t, a) then [t] else [])
  {
  }

  lemma {:induction false} FilterAppend(xs: seq<Transaction>, ys: seq<Transaction>, a: Addr)
    ensures Filter(xs + ys, a) == Filter(xs, a) + Filter(ys, a)
    decreases |ys|
  {
    if |ys| == 0 {
      assert xs + ys == xs;
    } else {
      var ys' := ys[..|ys| - 1];
      assert (xs + ys)[..|xs + ys| - 1] == xs + ys';
      FilterAppend(xs, ys', a);
    }
  }

  /** The history holds exactly the transactions that involve `a`, none
      more than the chain holds, each in chain order. */
  lemma {:induction false} FilterSound(txs: seq<Transaction>, a: Addr)
    ensures |Filter(txs, a)| <= |txs|
    ensures forall t :: t in Filter(txs, a) <==> t in txs && Involves(t, a)
    decreases |txs|
  {
    if |txs| > 0 {
      var init := txs[..|txs| - 1];
      FilterSound(init, a);
      assert txs == init + [txs[|txs| - 1]];
    }
  }

  /** Only the transactions involving `a` move its balance. */
  lemma {:induction false} NetOfFilter(txs: seq<Transaction>, a: Addr)
    ensures Net(Filter(txs, a), a) == Net(txs, a)
    decreases |txs|
  {
    if |txs| > 0 {
      var init := txs[..|txs| - 1];
      var last := txs[|txs| - 1];
      NetOfFilter(init, a);
      NetAppend(Filter(init, a), if Involves(last, a) then [last] else [], a);
      assert Net([last], a) == Net([], a) + Delta(last, a);
    }
  }

  /** Appending a block extends a wallet's history by the block's matching
      transactions, after everything earlier. */
  lemma HistoryAppend(chain: seq<Block>, b: Block, a: Addr)
    ensures WalletHistory(chain + [b], a) == WalletHistory(chain, a) + Filter(TxsOf(b), a)
  {
    FlattenAppend(chain, b);
    FilterAppend(Flatten(chain), TxsOf(b), a);
  }

  /** The inner loop of `getAllTransactionsForWallet`: one block's
      matching transactions appended to the running history. */
  method CollectHistory(start: seq<Transaction>, txs: seq<Transaction>, address: Addr) returns (history: seq<Transaction>)
    ensures history == start + Filter(txs, address)
  {
    history := start;
    var j := 0;
    while j < |txs|
      invariant 0 <= j <= |txs|
      invariant history == start + Filter(txs[..j], address)
    {
      var t := txs[j];
      assert txs[..j + 1] == txs[..j] + [t];
      FilterSnoc(txs[..j], t, address);
      if t.addressFrom == address || t.addressTo == address {
        history := history + [t];
      }
      j := j + 1;
    }
    assert txs[..j] == txs;
  }

  /** `getAllTransactionsForWallet`: the replay loop collecting every
      transaction sent or received by `address`. */
  method GetAllTransactionsForWallet(chain: seq<Block>, address: Addr) returns (history: seq<Transaction>)
    ensures history == WalletHistory(chain, address)
    ensures |history| <= |Flatten(chain)|
    ensures forall t :: t in history <==> t in Flatten(chain) && Involves(t, address)
  {
    history := [];
    var i := 0;
    while i < |chain|
      invariant 0 <= i <= |chain|
      invariant history == WalletHistory(chain[..i], address)
    {
      history := CollectHistory(history, TxsOf(chain[i]), address);
      assert chain[..i + 1] == chain[..i] + [chain[i]];
      HistoryAppend(chain[..i], chain[i], address);
      i := i + 1;
    }
    assert chain[..i] == chain;
    FilterSound(Flatten(chain), address);
  }

  // ---------------------------------------------------------------------
  // Admission of a transaction into the pending pool

  /** The result of an operation that either succeeds with a new state or
      throws, leaving the state as it was. */
  datatype Admission = Admission(after: Blockchain, outcome: Outcome)

  /** The admission pipeline, in order: the signature check (whose own
      error propagates), both endpoints present, a positive amount, and the
      sender's balance on the MINED chain covering the amount.
      The source calls `transaction.isValid()`, which does not exist on a
      transaction (the method is `isTxValid`), so as written every call
      throws a TypeError; the model calls `isTxValid` as evidently meant. */
  function AddTransaction(c: Primitives, bc: Blockchain, tx: Transaction): (r: Admission)
    ensures r.outcome.Fail? ==> r.after == bc
    ensures r.outcome.Pass? ==> r.after == bc.(pendingTransactions := bc.pendingTransactions + [tx])
    // each check, in order, decides the error
    ensures IsTxValid(c, tx).Err? ==> r.outcome == Fail(NoSignature)
    ensures IsTxValid(c, tx) == Ok(false) ==> r.outcome == Fail(InvalidTransaction)
    ensures IsTxValid(c, tx) == Ok(true) && (Falsy(tx.addressFrom) || Falsy(tx.addressTo)) ==>
              r.outcome == Fail(MalformedTransaction)
    ensures IsTxValid(c, tx) == Ok(true) && !Falsy(tx.addressFrom) && !Falsy(tx.addressTo) && tx.amount <= 0 ==>
              r.outcome == Fail(InvalidAmount)
    ensures IsTxValid(c, tx) == Ok(true) && !Falsy(tx.addressFrom) && !Falsy(tx.addressTo) && tx.amount > 0 ==>
              (r.outcome == Fail(InsufficientBalance) <==> BalanceOf(bc.chain, tx.addressFrom) < tx.amount)
    // admitted exactly when every check passes
    ensures r.outcome.Pass? <==>
              && IsTxValid(c, tx) == Ok(true)
              && !Falsy(tx.addressFrom) && !Falsy(tx.addressTo)
              && 0 < tx.amount <= BalanceOf(bc.chain, tx.addressFrom)
    // what admission guarantees about an admitted transaction
    ensures r.outcome.Pass? ==>
              && tx.addressFrom.Hex? && tx.addressFrom.key != ""
              && tx.addressTo.Hex? && tx.addressTo.key != ""
              && !Unsigned(tx)
              && c.verify(tx.addressFrom.key, CalculateTxHash(c, tx), tx.signature.value)
              && 0 < tx.amount <= BalanceOf(bc.chain, tx.addressFrom)
  {
    match IsTxValid(c, tx)
    case Err(e) => Admission(bc, Fail(e))
    case Ok(valid) =>
      if !valid then Admission(bc, Fail(InvalidTransaction))
      else if Falsy(tx.addressFrom) || Falsy(tx.addressTo) then Admission(bc, Fail(MalformedTransaction))
      else if tx.amount <= 0 then Admission(bc, Fail(InvalidAmount))
      else if BalanceOf(bc.chain, tx.addressFrom) < tx.amount then Admission(bc, Fail(InsufficientBalance))
      else Admission(bc.(pendingTransactions := bc.pendingTransactions + [tx]), Pass)
  }

  /** A null-source transaction passes the signature check but is always
      refused as malformed: rewards never enter through admission. */
  lemma NullSourceNeverAdmitted(c: Primitives, bc: Blockchain, tx: Transaction)
    requires tx.addressFrom.Null?
    ensures AddTransaction(c, bc, tx).outcome == Fail(MalformedTransaction)
    ensures AddTransaction(c, bc, tx).after == bc
  {
  }

  /** The balance check never looks at the pending pool: a transaction the
      engine would admit is still admitted after any other transaction from
      the same sender has been queued, even when the two together exceed the
      sender's balance. */
  lemma PendingDoubleSpend(c: Primitives, bc: Blockchain, t1: Transaction, t2: Transaction)
    requires AddTransaction(c, bc, t1).outcome.Pass?
    requires AddTransaction(c, bc, t2).outcome.Pass?
    ensures AddTransaction(c, AddTransaction(c, bc, t1).after, t2).outcome.Pass?
    ensures AddTransaction(c, AddTransaction(c, bc, t1).after, t2).after.pendingTransactions
            == bc.pendingTransactions + [t1, t2]
  {
  }

  // ---------------------------------------------------------------------
  // Mining the pending pool

  /** The block a mining run starts from: index and timestamp are the
      current time, the transactions are the pending pool followed by the
      reward, and the previous hash is the latest block's hash.
      The source passes only three arguments to the four-parameter
      constructor, shifting each by one slot; the model passes them as the
      rest of the engine (balance replay, validity) evidently expects. The
      literal call is modelled in module Findings. */
  function CandidateBlock(c: Primitives, bc: Blockchain, rewardAddress: Addr, rewardTime: int, blockTime: int): (b: Block)
    requires |bc.chain| > 0
    ensures Sealed(c, b) && b.nonce == 0
    ensures b.index == blockTime && b.timestamp == Millis(blockTime)
    ensures b.previousHash == GetLatestBlock(bc).hash
    ensures b.transactions
            == Txs(bc.pendingTransactions + [NewTransaction(c, Null, rewardAddress, bc.miningReward, rewardTime)])
  {
    var reward := NewTransaction(c, Null, rewardAddress, bc.miningReward, rewardTime);
    NewBlock(c, blockTime, Millis(blockTime), Txs(bc.pendingTransactions + [reward]), GetLatestBlock(bc).hash)
  }

  /** `minePendingTransactions`: append a reward to the pool, build a block
      from it, mine it at the chain's difficulty, push it and clear the
      pool. `rewardTime` and `blockTime` are the two `Date.now()` readings;
      `None` means the proof-of-work search did not finish within `fuel`
      steps (the source would still be searching). */
  function MinePendingTransactions(c: Primitives, bc: Blockchain, rewardAddress: Addr,
                                   rewardTime: int, blockTime: int, fuel: nat): (r: Option<Blockchain>)
    requires |bc.chain| > 0
    // the outcome is exactly that of the proof-of-work search from the candidate
    ensures r.Some? <==> Mine(c, CandidateBlock(c, bc, rewardAddress, rewardTime, blockTime), bc.difficulty, fuel).Some?
    ensures r.Some? ==>
              r.value.chain == bc.chain + [Mine(c, CandidateBlock(c, bc, rewardAddress, rewardTime, blockTime), bc.difficulty, fuel).value]
    ensures bc.difficulty == 0 ==> r.Some?
    ensures r.Some? ==>
              && |r.value.chain| == |bc.chain| + 1
              && r.value.chain[..|bc.chain|] == bc.chain
              && r.value.pendingTransactions == []
              && r.value.difficulty == bc.difficulty && r.value.miningReward == bc.miningReward
    ensures r.Some? ==>
              var b := r.value.chain[|bc.chain|];
              && b.index == blockTime && b.timestamp == Millis(blockTime)
              && b.previousHash == bc.chain[|bc.chain| - 1].hash
              && Solved(b.hash, bc.difficulty)
              && Sealed(c, b)
              && TxsOf(b) == bc.pendingTransactions + [NewTransaction(c, Null, rewardAddress, bc.miningReward, rewardTime)]
    // the nonce is the first from 0 that solves the puzzle
    ensures r.Some? ==>
              forall n :: 0 <= n < r.value.chain[|bc.chain|].nonce ==>
                !Solved(HashAt(c, CandidateBlock(c, bc, rewardAddress, rewardTime, blockTime), n), bc.difficulty)
  {
    var candidate := CandidateBlock(c, bc, rewardAddress, rewardTime, blockTime);
    match Mine(c, candidate, bc.difficulty, fuel)
    case None => None
    case Some(mined) =>
      var chain' := bc.chain + [mined];
      assert chain'[..|bc.chain|] == bc.chain;
      Some(bc.(chain := chain', pendingTransactions := []))
  }

  /** Appending a sealed block that links to the last one keeps a valid
      chain valid. */
  lemma AppendKeepsValid(c: Primitives, chain: seq<Block>, b: Block)
    requires ValidChain(c, chain)
    requires Sealed(c, b) && b.previousHash == chain[|chain| - 1].hash
    ensures ValidChain(c, chain + [b])
  {
    var after := chain + [b];
    forall i | 1 <= i < |after|
      ensures after[i].hash == CalculateHash(c, after[i]) && after[i].previousHash == after[i - 1].hash
    {
      if i < |chain| {
        assert after[i] == chain[i] && after[i - 1] == chain[i - 1];
      }
    }
    assert after[0] == chain[0];
  }

  /** Mining keeps a valid chain valid. */
  lemma MinePreservesValidity(c: Primitives, bc: Blockchain, rewardAddress: Addr,
                              rewardTime: int, blockTime: int, fuel: nat)
    requires ValidChain(c, bc.chain)
    requires MinePendingTransactions(c, bc, rewardAddress, rewardTime, blockTime, fuel).Some?
    ensures ValidChain(c, MinePendingTransactions(c, bc, rewardAddress, rewardTime, blockTime, fuel).value.chain)
  {
    var after := MinePendingTransactions(c, bc, rewardAddress, rewardTime, blockTime, fuel).value.chain;
    var mined := after[|bc.chain|];
    assert after == bc.chain + [mined];
    AppendKeepsValid(c, bc.chain, mined);
  }

  /** After mining, every balance has moved by the net of the pending pool
      plus the reward, which credits the reward address and, being sent
      from null, debits the null address. */
  lemma MineCreditsMiner(c: Primitives, bc: Blockchain, rewardAddress: Addr,
                         rewardTime: int, blockTime: int, fuel: nat, a: Addr)
    requires |bc.chain| > 0
    requires MinePendingTransactions(c, bc, rewardAddress, rewardTime, blockTime, fuel).Some?
    ensures BalanceOf(MinePendingTransactions(c, bc, rewardAddress, rewardTime, blockTime, fuel).value.chain, a)
            == BalanceOf(bc.chain, a) + Net(bc.pendingTransactions, a)
               + (if rewardAddress == a then bc.miningReward else 0)
               - (if a.Null? then bc.miningReward else 0)
  {
    var after := MinePendingTransactions(c, bc, rewardAddress, rewardTime, blockTime, fuel).value.chain;
    var b := after[|bc.chain|];
    var reward := NewTransaction(c, Null, rewardAddress, bc.miningReward, rewardTime);
    assert after == bc.chain + [b];
    BalanceAdditive(bc.chain, b, a);
    NetAppend(bc.pendingTransactions, [reward], a);
    assert Net([reward], a) == Net([], a) + Delta(reward, a);
  }

  // ---------------------------------------------------------------------
  // Tampering with history

  /** With a collision-free digest, replacing any mined block by one that
      keeps its stored hash but differs in any hashed field (index, previous
      hash, timestamp, transactions, nonce) makes the chain invalid. */
  lemma TamperingInvalidates(c: Primitives, chain: seq<Block>, i: nat, t: Block)
    requires BlockDigestInjective(c)
    requires ValidChain(c, chain)
    requires 1 <= i < |chain|
    requires t.hash == chain[i].hash && PreimageOf(t) != PreimageOf(chain[i])
    ensures !ValidChain(c, chain[i := t])
  {
    assert CalculateHash(c, t) != CalculateHash(c, chain[i]);
    assert chain[i := t][i] == t;
  }

  /** A mined block with the amount of its `j`-th transaction replaced. */
  function TamperAmount(b: Block, j: nat, amount: int): (t: Block)
    requires b.transactions.Txs? && j < |b.transactions.txs|
    ensures SameContent(b, t) == (amount == b.transactions.txs[j].amount)
    ensures t.hash == b.hash && t.previousHash == b.previousHash && t.nonce == b.nonce
  {
    var txs := b.transactions.txs;
    var t := b.(transactions := Txs(txs[j := txs[j].(amount := amount)]));
    assert amount != txs[j].amount ==> t.transactions.txs[j] != txs[j];
    t
  }

  /** The commonest case: changing an amount inside any mined block without
      re-mining makes the chain invalid. */
  lemma TamperedAmountInvalidates(c: Primitives, chain: seq<Block>, i: nat, j: nat, amount: int)
    requires BlockDigestInjective(c)
    requires ValidChain(c, chain)
    requires 1 <= i < |chain| && chain[i].transactions.Txs? && j < |chain[i].transactions.txs|
    requires amount != chain[i].transactions.txs[j].amount
    ensures !ValidChain(c, chain[i := TamperAmount(chain[i], j, amount)])
  {
    var t := TamperAmount(chain[i], j, amount);
    assert t.transactions != chain[i].transactions;
    TamperingInvalidates(c, chain, i, t);
  }
}

=== FILE: decimal.dfy ===
/** The decimal text JavaScript produces when an integer meets a string in
    `+` (`Number.prototype.toString` with radix 10), and the reading back
    that shows the text determines the number. */
module Decimal {

  /** The character of a decimal digit. */
  function Digit(d: nat): (ch: char)
    requires d < 10
    ensures '0' <= ch <= '9'
    ensures (ch as int) - ('0' as int) == d
  {
    (('0' as int) + d) as char
  }

  /** The value of a digit character; other characters read as 0. */
  function DigitValue(ch: char): nat {
    if '0' <= ch <= '9' then (ch as int) - ('0' as int) else 0
  }

  /** The digits of `n`, most significant first, without leading zeros. */
  function DecNat(n: nat): (s: string)
    ensures |s| > 0 && '0' <= s[0] <= '9'
  {
    if n < 10 then [Digit(n)] else DecNat(n / 10) + [Digit(n % 10)]
  }

  /** Reads a string of digits back as a number, least significant last. */
  function ParseNat(s: string): nat {
    if |s| == 0 then 0 else ParseNat(s[..|s| - 1]) * 10 + DigitValue(s[|s| - 1])
  }

  /** The text of an integer: a minus sign before the digits of a negative
      one. */
  function Dec(n: int): (s: string)
    ensures |s| > 0
  {
    if n < 0 then "-" + DecNat(-n) else DecNat(n)
  }

  function Parse(s: string): int {
    if |s| > 0 && s[0] == '-' then -(ParseNat(s[1..]) as int) else ParseNat(s)
  }

  lemma {:induction false} ParseDecNat(n: nat)
    ensures ParseNat(DecNat(n)) == n
  {
    if n >= 10 {
      var s := DecNat(n);
      assert s[..|s| - 1] == DecNat(n / 10);
      ParseDecNat(n / 10);
    }
  }

  /** Reading the text of an integer gives the integer back. */
  lemma DecRoundTrip(n: int)
    ensures Parse(Dec(n)) == n
  {
    if n < 0 {
      assert Dec(n)[1..] == DecNat(-n);
      ParseDecNat(-n);
    } else {
      ParseDecNat(n);
    }
  }

  /** Different integers have different texts. */
  lemma DecInjective(a: int, b: int)
    ensures Dec(a) == Dec(b) <==> a == b
  {
    DecRoundTrip(a);
    DecRoundTrip(b);
  }
}

=== FILE: findings.dfy ===
/** Three places where the engine's code, read literally, does not do what the
    rest of the engine relies on. Each is modelled here as written, next to
    a lemma that exhibits the consequence; the corrected behaviour is the one
    modules Blocks and Chains use. */
module Findings {
  import opened Ledger
  import opened Transactions
  import opened Blocks
  import opened Chains
  import opened Decimal

  // ---------------------------------------------------------------------
  // 1. The block hash ignores the contents of its transactions.
  //
  // `calculateHash` hashes `JSON.stringify(this.transactions + this.nonce)`.
  // The `+` converts the transaction array to a string before it is
  // stringified, and each transaction object converts to the same text
  // "[object Object]", so only the number of transactions reaches the hash.

  function BodyAsWritten(p: Payload): Body {
    match p
    case Placeholder(t) => Text(t)
    case Txs(txs) => ObjectList(|txs|)
  }

  function CalculateHashAsWritten(c: Primitives, b: Block): string {
    c.blockDigest(Preimage(b.index, b.previousHash, b.timestamp, BodyAsWritten(b.transactions), b.nonce))
  }

  /** Under the hash as written, changing the amount of any transaction in
      any block after the first leaves the chain exactly as valid as before,
      whatever the digest function: the tampered chain is linked if and only
      if the original is. (Corrected: Chains.TamperedAmountInvalidates.) */
  lemma TamperUndetectedAsWritten(c: Primitives, chain: seq<Block>, genesis: Block, i: nat, j: nat, amount: int)
    requires 1 <= i < |chain| && chain[i].transactions.Txs? && j < |chain[i].transactions.txs|
    ensures Linked(chain[i := TamperAmount(chain[i], j, amount)], genesis, b => CalculateHashAsWritten(c, b))
            <==> Linked(chain, genesis, b => CalculateHashAsWritten(c, b))
  {
    var t := TamperAmount(chain[i], j, amount);
    var tampered := chain[i := t];
    assert CalculateHashAsWritten(c, t) == CalculateHashAsWritten(c, chain[i]);
    assert tampered[0] == chain[0];
    forall k | 0 <= k < |chain|
      ensures tampered[k].hash == chain[k].hash && tampered[k].previousHash == chain[k].previousHash
      ensures CalculateHashAsWritten(c, tampered[k]) == CalculateHashAsWritten(c, chain[k])
    {
    }
  }

  // ---------------------------------------------------------------------
  // 2. The mined block is built with its arguments shifted by one slot.
  //
  // `minePendingTransactions` calls `new Block(Date.now(), pending,
  // latestHash)` against `constructor(index, timestamp, transactions,
  // previousHash = "")`: the time lands in `index`, the pool in `timestamp`,
  // the latest hash in `transactions`, and `previousHash` is "".

  function CandidateBlockAsWritten(c: Primitives, bc: Blockchain, rewardAddress: Addr, rewardTime: int, blockTime: int): (b: Block)
    requires |bc.chain| > 0
    ensures b.previousHash == "" && TxsOf(b) == []
  {
    var reward := NewTransaction(c, Null, rewardAddress, bc.miningReward, rewardTime);
    NewBlock(c, blockTime, PoolAsStamp(bc.pendingTransactions + [reward]), Placeholder(GetLatestBlock(bc).hash), "")
  }

  function MinePendingTransactionsAsWritten(c: Primitives, bc: Blockchain, rewardAddress: Addr,
                                            rewardTime: int, blockTime: int, fuel: nat): (r: Option<Blockchain>)
    requires |bc.chain| > 0
    ensures r.Some? <==> Mine(c, CandidateBlockAsWritten(c, bc, rewardAddress, rewardTime, blockTime), bc.difficulty, fuel).Some?
    ensures r.Some? ==>
              r.value.chain
              == bc.chain + [Mine(c, CandidateBlockAsWritten(c, bc, rewardAddress, rewardTime, blockTime), bc.difficulty, fuel).value]
    ensures r.Some? ==> |r.value.chain| == |bc.chain| + 1 && r.value.chain[..|bc.chain|] == bc.chain
    ensures r.Some? ==> r.value.chain[|bc.chain|].previousHash == "" && TxsOf(r.value.chain[|bc.chain|]) == []
  {
    var candidate := CandidateBlockAsWritten(c, bc, rewardAddress, rewardTime, blockTime);
    match Mine(c, candidate, bc.difficulty, fuel)
    case None => None
    case Some(mined) =>
      var chain' := bc.chain + [mined];
      assert chain'[..|bc.chain|] == bc.chain;
      Some(bc.(chain := chain', pendingTransactions := []))
  }

  /** As written, the first mined block breaks the previous-hash link (unless
      the latest hash happens to be empty), so no check of the `isChainValid`
      shape accepts the chain. (Corrected: Chains.MinePreservesValidity.) */
  lemma MiningBreaksLinkAsWritten(c: Primitives, bc: Blockchain, rewardAddress: Addr, rewardTime: int, blockTime: int,
                                  fuel: nat, genesis: Block, hashOf: Block -> string)
    requires |bc.chain| > 0 && GetLatestBlock(bc).hash != ""
    requires MinePendingTransactionsAsWritten(c, bc, rewardAddress, rewardTime, blockTime, fuel).Some?
    ensures !Linked(MinePendingTransactionsAsWritten(c, bc, rewardAddress, rewardTime, blockTime, fuel).value.chain, genesis, hashOf)
  {
  }

  /** As written, mining credits nobody: the new block's transaction slot
      holds a hash string, and neither the pool nor the reward is recorded.
      (Corrected: Chains.MineCreditsMiner.) */
  lemma MiningCreditsNothingAsWritten(c: Primitives, bc: Blockchain, rewardAddress: Addr, rewardTime: int, blockTime: int,
                                      fuel: nat, a: Addr)
    requires |bc.chain| > 0
    requires MinePendingTransactionsAsWritten(c, bc, rewardAddress, rewardTime, blockTime, fuel).Some?
    ensures BalanceOf(MinePendingTransactionsAsWritten(c, bc, rewardAddress, rewardTime, blockTime, fuel).value.chain, a)
            == BalanceOf(bc.chain, a)
  {
    var after := MinePendingTransactionsAsWritten(c, bc, rewardAddress, rewardTime, blockTime, fuel).value.chain;
    assert after == bc.chain + [after[|bc.chain|]];
    BalanceAdditive(bc.chain, after[|bc.chain|], a);
  }

  // ---------------------------------------------------------------------
  // 3. The transaction hash runs its fields together.
  //
  // `calculateTxHash` hashes `addressFrom + addressTo + amount + timestamp`.
  // JavaScript's `+` turns the four values into one text with no separator,
  // so an amount and a timestamp can trade digits without changing the
  // text, and the signature over the hash stays valid.

  /** How an address reads when `+` meets it: a null address is "null". */
  function AddrText(a: Addr): string {
    match a
    case Null => "null"
    case Hex(k) => k
  }

  /** The text `calculateTxHash` feeds to SHA-256. When both addresses are
      null, `null + null` is the number 0, so the sum stays numeric until
      the end and the text is that of `amount + timestamp`. */
  function TxTextAsWritten(from: Addr, to: Addr, amount: int, timestamp: int): string {
    if from.Null? && to.Null? then Dec(amount + timestamp)
    else AddrText(from) + AddrText(to) + Dec(amount) + Dec(timestamp)
  }

  /** The transaction digest as written: `sha` of the concatenated text. */
  function ConcatDigest(sha: string -> string): (Addr, Addr, int, int) -> string {
    (from, to, amount, timestamp) => sha(TxTextAsWritten(from, to, amount, timestamp))
  }

  /** SHA-256 modelled as collision free. */
  ghost predicate ShaInjective(sha: string -> string) {
    forall x, y :: sha(x) == sha(y) ==> x == y
  }

  /** Amount 1 at timestamp 23 and amount 12 at timestamp 3 share a text. */
  lemma AmountTimestampCollide()
    ensures Dec(1) + Dec(23) == Dec(12) + Dec(3)
  {
  }

  /** As written, the transaction digest is never collision free, whatever
      SHA-256 is: the assumption under which the corrected engine detects
      any rewrite of a signed transfer cannot hold for it. */
  lemma ConcatDigestNotInjective(c: Primitives, sha: string -> string)
    requires c.txDigest == ConcatDigest(sha)
    ensures !TxDigestInjective(c)
  {
    AmountTimestampCollide();
    var a := Hex("a");
    assert TxTextAsWritten(a, a, 1, 23) == TxTextAsWritten(a, a, 12, 3);
    assert c.txDigest(a, a, 1, 23) == c.txDigest(a, a, 12, 3);
  }

  /** As written, a signed transfer whose amount and timestamp are rewritten
      so that their texts run together the same way is still valid: a sound
      signature over the original verifies for the rewritten transfer. For
      example amount 1 at timestamp 23 becomes amount 12 at timestamp 3.
      (Corrected: Transactions.TamperedTransferIsInvalid.) */
  lemma RewrittenTransferStillValidAsWritten(c: Primitives, sha: string -> string, tx: Transaction, key: SigningKey,
                                             amount: int, timestamp: int)
    requires c.txDigest == ConcatDigest(sha)
    requires SignaturesVerify(c)
    requires SignTransaction(c, tx, key).Ok?
    requires Dec(amount) + Dec(timestamp) == Dec(tx.amount) + Dec(tx.timestamp)
    ensures IsTxValid(c, SignTransaction(c, tx, key).value.(amount := amount, timestamp := timestamp)) == Ok(true)
  {
    var signed := SignTransaction(c, tx, key).value;
    var forged := signed.(amount := amount, timestamp := timestamp);
    var prefix := AddrText(tx.addressFrom) + AddrText(tx.addressTo);
    assert TxTextAsWritten(tx.addressFrom, tx.addressTo, amount, timestamp) == prefix + (Dec(amount) + Dec(timestamp));
    assert TxTextAsWritten(tx.addressFrom, tx.addressTo, tx.amount, tx.timestamp)
           == prefix + (Dec(tx.amount) + Dec(tx.timestamp));
    assert CalculateTxHash(c, forged) == CalculateTxHash(c, tx);
  }

  /** Equal texts with equal surroundings have equal middles. */
  lemma CancelMiddle(x: string, y: string, y': string, z: string)
    requires x + y + z == x + y' + z
    ensures y == y'
  {
    assert |y| == |y'|;
    assert y == (x + y + z)[|x|..|x| + |y|];
    assert y' == (x + y' + z)[|x|..|x| + |y'|];
  }

  /** Between hex addresses, changing exactly one of recipient, amount or
      timestamp changes the text as written. */
  lemma OneFieldChangesText(from: Addr, to: Addr, to': Addr, amount: int, amount': int, timestamp: int, timestamp': int)
    requires to.Hex? && to'.Hex?
    requires || (to != to' && amount == amount' && timestamp == timestamp')
             || (to == to' && amount != amount' && timestamp == timestamp')
             || (to == to' && amount == amount' && timestamp != timestamp')
    ensures TxTextAsWritten(from, to, amount, timestamp) != TxTextAsWritten(from, to', amount', timestamp')
  {
    var f := AddrText(from);
    if to != to' {
      var rest := Dec(amount) + Dec(timestamp);
      assert TxTextAsWritten(from, to, amount, timestamp) == f + AddrText(to) + rest;
      assert TxTextAsWritten(from, to', amount, timestamp) == f + AddrText(to') + rest;
      if f + AddrText(to) + rest == f + AddrText(to') + rest {
        CancelMiddle(f, AddrText(to), AddrText(to'), rest);
      }
    } else if amount != amount' {
      DecInjective(amount, amount');
      if f + AddrText(to) + Dec(amount) + Dec(timestamp) == f + AddrText(to) + Dec(amount') + Dec(timestamp) {
        CancelMiddle(f + AddrText(to), Dec(amount), Dec(amount'), Dec(timestamp));
      }
    } else {
      DecInjective(timestamp, timestamp');
      var p := f + AddrText(to) + Dec(amount);
      assert TxTextAsWritten(from, to, amount, timestamp) == p + Dec(timestamp) + "";
      assert TxTextAsWritten(from, to, amount, timestamp') == p + Dec(timestamp') + "";
      if p + Dec(timestamp) + "" == p + Dec(timestamp') + "" {
        CancelMiddle(p, Dec(timestamp), Dec(timestamp'), "");
      }
    }
  }

  /** What the digest as written does detect: between hex addresses, a
      signed transfer with exactly one of its recipient, amount or
      timestamp changed is invalid, under an unforgeable scheme and a
      collision-free SHA-256. (A null recipient and the recipient spelt
      "null" share a text, hence hex addresses.) */
  lemma OneFieldRewriteDetectedAsWritten(c: Primitives, sha: string -> string, tx: Transaction, key: SigningKey,
                                         to: Addr, amount: int, timestamp: int)
    requires c.txDigest == ConcatDigest(sha)
    requires Unforgeable(c) && ShaInjective(sha)
    requires SignTransaction(c, tx, key).Ok?
    requires |c.sign(key, CalculateTxHash(c, tx))| > 0
    requires to.Hex? && tx.addressTo.Hex?
    requires || (to != tx.addressTo && amount == tx.amount && timestamp == tx.timestamp)
             || (to == tx.addressTo && amount != tx.amount && timestamp == tx.timestamp)
             || (to == tx.addressTo && amount == tx.amount && timestamp != tx.timestamp)
    ensures IsTxValid(c, SignTransaction(c, tx, key).value.(addressTo := to, amount := amount, timestamp := timestamp))
            == Ok(false)
  {
    var signed := SignTransaction(c, tx, key).value;
    var forged := signed.(addressTo := to, amount := amount, timestamp := timestamp);
    OneFieldChangesText(tx.addressFrom, tx.addressTo, to, tx.amount, amount, tx.timestamp, timestamp);
    assert CalculateTxHash(c, forged) != CalculateTxHash(c, tx);
  }
}

=== FILE: ledger.dfy ===
/** Shared vocabulary of the ledger engine: addresses, transactions, blocks,
    the preimage a block hash is computed from, the error taxonomy, and the
    record of cryptographic primitives that every operation is given.

    Hashing (SHA-256), public-key derivation, signing and verification are
    foreign code; they are modelled as function values held in `Primitives`,
    so every property proved here holds for every choice of them unless a
    lemma states an assumption about them explicitly. */
module Ledger {

  datatype Option<+T> = None | Some(value: T)

  /** An endpoint of a transaction: `null` (the source of a mining reward)
      or a public key in hexadecimal. */
  datatype Addr = Null | Hex(key: string)

  /** JavaScript falsiness of an address value: `null` or the empty string. */
  predicate Falsy(a: Addr) {
    a.Null? || a.key == ""
  }

  /** A value transfer. `signature` is `None` until the transaction is signed. */
  datatype Transaction = Transaction(
    addressFrom: Addr,
    addressTo: Addr,
    amount: int,
    timestamp: int,
    transactionHash: string,
    signature: Option<string>)

  /** What a block's `timestamp` slot holds: the genesis date text or a
      millisecond count. `PoolAsStamp` is only produced by the constructor
      call of the mining operation as written, which shifts its arguments by
      one slot (see module Findings). */
  datatype Stamp = DateText(text: string) | Millis(ms: int) | PoolAsStamp(pool: seq<Transaction>)

  /** What a block's `transactions` slot holds: a text placeholder (the
      genesis block's "Genesis Block") or a list of transactions. */
  datatype Payload = Placeholder(text: string) | Txs(txs: seq<Transaction>)

  datatype Block = Block(
    index: int,
    previousHash: string,
    timestamp: Stamp,
    transactions: Payload,
    hash: string,
    nonce: nat)

  /** How the transactions of a block enter its hash: as text, as the full
      transaction list, or (as the source writes it) as a list of objects of
      which only the count survives stringification. */
  datatype Body = Text(text: string) | Full(txs: seq<Transaction>) | ObjectList(count: nat)

  /** The fields a block hash is computed over. */
  datatype Preimage = Preimage(index: int, previousHash: string, timestamp: Stamp, body: Body, nonce: nat)

  /** An opaque private signing key. */
  datatype SigningKey = SigningKey(secret: string)

  /** The foreign cryptography the engine calls. */
  datatype Primitives = Primitives(
    // SHA-256 hex digest of from, to, amount and timestamp, kept apart
    txDigest: (Addr, Addr, int, int) -> string,
    // SHA-256 hex digest of a block's fields
    blockDigest: Preimage -> string,
    // public key of a signing key, as hex
    publicHex: SigningKey -> string,
    // DER-hex signature of a digest
    sign: (SigningKey, string) -> string,
    // verification of a DER-hex signature of a digest against a hex public key
    verify: (string, string, string) -> bool)

  /** The errors the engine throws, one per distinct `throw` site. */
  datatype Error =
    | NotYourWallet          // signing with a key that does not own addressFrom
    | NoSignature            // validity check of an unsigned, non-reward transaction
    | InvalidTransaction     // signature does not verify
    | MalformedTransaction   // an endpoint is null or empty
    | InvalidAmount          // amount is not positive
    | InsufficientBalance    // sender's mined balance is below the amount

  datatype Result<+T> = Ok(value: T) | Err(error: Error)

  datatype Outcome = Pass | Fail(error: Error)
}

=== FILE: scenario.dfy ===
/** An end-to-end run of the engine: a wallet earns a mining reward, sends
    half of it to another wallet, and mines again. */
module Scenarios {
  import opened Ledger
  import opened Transactions
  import opened Blocks
  import opened Chains

  /** The net of a single transaction is its delta. */
  lemma NetSingle(t: Transaction, a: Addr)
    ensures Net([t], a) == Delta(t, a)
  {
  }

  /** Mining a fresh chain with the reward to `a` leaves `a` with the
      reward and every other non-null address with nothing. */
  lemma FirstMine(c: Primitives, a: Addr, b: Addr, rewardTime: int, blockTime: int, fuel: nat)
    requires a != b && a.Hex? && b.Hex?
    requires MinePendingTransactions(c, NewBlockchain(c), a, rewardTime, blockTime, fuel).Some?
    ensures
      var bc1 := MinePendingTransactions(c, NewBlockchain(c), a, rewardTime, blockTime, fuel).value;
      && BalanceOf(bc1.chain, a) == 100 && BalanceOf(bc1.chain, b) == 0
      && |bc1.chain| > 0 && bc1.pendingTransactions == [] && bc1.miningReward == 100
  {
    var bc0 := NewBlockchain(c);
    assert Flatten(bc0.chain) == Flatten([]) + TxsOf(bc0.chain[0]);
    MineCreditsMiner(c, bc0, a, rewardTime, blockTime, fuel, a);
    MineCreditsMiner(c, bc0, a, rewardTime, blockTime, fuel, b);
  }

  /** A transfer of 50 signed by the owner of a wallet holding 100 is
      admitted. */
  lemma AdmitTransfer(c: Primitives, kA: SigningKey, b: Addr, bc: Blockchain, now: int)
    requires SignaturesVerify(c)
    requires c.publicHex(kA) != "" && b.Hex? && b.key != ""
    requires BalanceOf(bc.chain, Hex(c.publicHex(kA))) == 100
    ensures SignTransaction(c, NewTransaction(c, Hex(c.publicHex(kA)), b, 50, now), kA).Ok?
    ensures AddTransaction(c, bc, SignTransaction(c, NewTransaction(c, Hex(c.publicHex(kA)), b, 50, now), kA).value).outcome
            == Pass
  {
  }

  /** Mining a pool holding one transfer of 50 from `a` to `b`, with the
      reward to `a`. */
  lemma SecondMine(c: Primitives, bc: Blockchain, a: Addr, b: Addr, tx: Transaction,
                   rewardTime: int, blockTime: int, fuel: nat)
    requires a != b && a.Hex? && b.Hex?
    requires |bc.chain| > 0 && bc.pendingTransactions == [tx] && bc.miningReward == 100
    requires tx.addressFrom == a && tx.addressTo == b && tx.amount == 50
    requires BalanceOf(bc.chain, a) == 100 && BalanceOf(bc.chain, b) == 0
    requires MinePendingTransactions(c, bc, a, rewardTime, blockTime, fuel).Some?
    ensures BalanceOf(MinePendingTransactions(c, bc, a, rewardTime, blockTime, fuel).value.chain, a) == 150
    ensures BalanceOf(MinePendingTransactions(c, bc, a, rewardTime, blockTime, fuel).value.chain, b) == 50
  {
    MineCreditsMiner(c, bc, a, rewardTime, blockTime, fuel, a);
    MineCreditsMiner(c, bc, a, rewardTime, blockTime, fuel, b);
    NetSingle(tx, a);
    NetSingle(tx, b);
  }

  /** Wallet A (owner of key `kA`) mines the first block, signs a transfer of
      50 to wallet B, has it admitted, and mines again: A holds
      100 - 50 + 100 and B holds 50. The scheme is assumed sound; the two
      mining searches are assumed to finish within `fuel` steps. */
  lemma TransferScenario(c: Primitives, kA: SigningKey, b: Addr, times: seq<int>, fuel: nat)
    requires SignaturesVerify(c)
    requires |times| == 5
    requires c.publicHex(kA) != "" && b.Hex? && b.key != "" && b != Hex(c.publicHex(kA))
    requires MinePendingTransactions(c, NewBlockchain(c), Hex(c.publicHex(kA)), times[0], times[1], fuel).Some?
    ensures
      var a := Hex(c.publicHex(kA));
      var bc1 := MinePendingTransactions(c, NewBlockchain(c), a, times[0], times[1], fuel).value;
      var signed := SignTransaction(c, NewTransaction(c, a, b, 50, times[2]), kA);
      var admitted := AddTransaction(c, bc1, signed.value);
      && BalanceOf(bc1.chain, a) == 100
      && signed.Ok? && admitted.outcome == Pass
      && (MinePendingTransactions(c, admitted.after, a, times[3], times[4], fuel).Some? ==>
            var bc2 := MinePendingTransactions(c, admitted.after, a, times[3], times[4], fuel).value;
            BalanceOf(bc2.chain, a) == 150 && BalanceOf(bc2.chain, b) == 50)
  {
    var a := Hex(c.publicHex(kA));
    FirstMine(c, a, b, times[0], times[1], fuel);
    var bc1 := MinePendingTransactions(c, NewBlockchain(c), a, times[0], times[1], fuel).value;
    AdmitTransfer(c, kA, b, bc1, times[2]);
    var signed := SignTransaction(c, NewTransaction(c, a, b, 50, times[2]), kA).value;
    var admitted := AddTransaction(c, bc1, signed);
    assert admitted.after == bc1.(pendingTransactions := [signed]);
    if MinePendingTransactions(c, admitted.after, a, times[3], times[4], fuel).Some? {
      SecondMine(c, admitted.after, a, b, signed, times[3], times[4], fuel);
    }
  }
}

=== FILE: transaction.dfy ===
/** The `Transaction` class: construction with a derived hash, signing
    guarded by ownership of the source address, and validity. */
module Transactions {
  import opened Ledger

  /** Two transactions agree on the four fields the hash covers. */
  predicate SameHashedFields(a: Transaction, b: Transaction) {
    a.addressFrom == b.addressFrom && a.addressTo == b.addressTo && a.amount == b.amount && a.timestamp == b.timestamp
  }

  /** `calculateTxHash`: the digest of a transaction's current from, to,
      amount and timestamp. The source hashes the four values concatenated
      into one text with no separator; the model hashes them as four
      separate values, so that different fields can never run together.
      The literal concatenation is modelled in module Findings. */
  function CalculateTxHash(c: Primitives, tx: Transaction): string
  {
    c.txDigest(tx.addressFrom, tx.addressTo, tx.amount, tx.timestamp)
  }

  /** The stored hash agrees with the one recomputed from the fields. */
  predicate HashConsistent(c: Primitives, tx: Transaction) {
    tx.transactionHash == CalculateTxHash(c, tx)
  }

  /** Missing or empty signature: `!signature || signature.length === 0`. */
  predicate Unsigned(tx: Transaction) {
    tx.signature.None? || tx.signature.value == ""
  }

  /** `key` controls `a`: its public key in hex is exactly the address.
      A null address is owned by no key. */
  predicate Owns(c: Primitives, key: SigningKey, a: Addr) {
    a == Hex(c.publicHex(key))
  }

  /** The hash covers from, to, amount and timestamp and nothing else:
      transactions that agree on them hash alike whatever their signatures
      and stored hashes, and under a collision-free digest only such
      transactions do. */
  lemma TxHashCoversFields(c: Primitives, a: Transaction, b: Transaction)
    ensures SameHashedFields(a, b) ==> CalculateTxHash(c, a) == CalculateTxHash(c, b)
    ensures TxDigestInjective(c) && CalculateTxHash(c, a) == CalculateTxHash(c, b) ==> SameHashedFields(a, b)
  {
  }

  /** The constructor; `now` stands for `Date.now()`. */
  function NewTransaction(c: Primitives, from: Addr, to: Addr, amount: int, now: int): (tx: Transaction)
    ensures tx.addressFrom == from && tx.addressTo == to
    ensures tx.amount == amount && tx.timestamp == now
    ensures tx.signature.None?
    ensures HashConsistent(c, tx)
  {
    var t := Transaction(from, to, amount, now, "", None);
    t.(transactionHash := CalculateTxHash(c, t))
  }

  /** `signTransaction`: refuses a key that does not own `addressFrom` (a
      reward, whose source is null, can never be signed); otherwise attaches
      the signature of the hash recomputed from the current fields. */
  function SignTransaction(c: Primitives, tx: Transaction, key: SigningKey): (r: Result<Transaction>)
    ensures Owns(c, key, tx.addressFrom) <==> r.Ok?
    ensures !Owns(c, key, tx.addressFrom) <==> r == Err(NotYourWallet)
    ensures r.Ok? ==> r.value.signature == Some(c.sign(key, CalculateTxHash(c, r.value)))
    ensures r.Ok? ==> r.value.(signature := tx.signature) == tx
  {
    if !Owns(c, key, tx.addressFrom) then Err(NotYourWallet)
    else Ok(tx.(signature := Some(c.sign(key, CalculateTxHash(c, tx)))))
  }

  /** `isTxValid`. A reward (null source) is trusted; an unsigned transfer
      is an error; otherwise the signature is checked against the hash of
      the CURRENT fields, never the stored `transactionHash`.
      The source builds the public key from `this.fromAddress`, a property
      that does not exist; the model uses `addressFrom`, which is what the
      surrounding code evidently means. */
  function IsTxValid(c: Primitives, tx: Transaction): (r: Result<bool>)
    ensures tx.addressFrom.Null? ==> r == Ok(true)
    ensures tx.addressFrom.Hex? ==> (r == Err(NoSignature) <==> Unsigned(tx))
    ensures r.Ok? && tx.addressFrom.Hex? ==>
              r.value == c.verify(tx.addressFrom.key, CalculateTxHash(c, tx), tx.signature.value)
    ensures r.Err? ==> r.error == NoSignature
  {
    if tx.addressFrom.Null? then Ok(true)
    else if Unsigned(tx) then Err(NoSignature)
    else Ok(c.verify(tx.addressFrom.key, CalculateTxHash(c, tx), tx.signature.value))
  }

  /** `hasValidTxs`, as a predicate over a sequence of transactions: false
      at the first transaction that fails verification, and the first
      error thrown by `isTxValid` propagates. The source defines it on
      `Transaction` but iterates `this.transactions`, which a transaction
      does not have; the sequence is made an explicit argument. */
  function HasValidTxs(c: Primitives, txs: seq<Transaction>): (r: Result<bool>)
    ensures r == Ok(true) <==> forall i :: 0 <= i < |txs| ==> IsTxValid(c, txs[i]) == Ok(true)
    ensures r != Ok(true) ==>
              exists k :: 0 <= k < |txs| && IsTxValid(c, txs[k]) != Ok(true) && r == IsTxValid(c, txs[k])
                          && forall i :: 0 <= i < k ==> IsTxValid(c, txs[i]) == Ok(true)
  {
    if |txs| == 0 then Ok(true)
    else
      match IsTxValid(c, txs[0])
      case Err(e) => Err(e)
      case Ok(false) => Ok(false)
      case Ok(true) =>
        var rest := HasValidTxs(c, txs[1..]);
        assert forall i :: 1 <= i < |txs| ==> txs[i] == txs[1..][i - 1];
        if rest != Ok(true) then
          var k' :| 0 <= k' < |txs[1..]| && IsTxValid(c, txs[1..][k']) != Ok(true) && rest == IsTxValid(c, txs[1..][k'])
                     && forall i :: 0 <= i < k' ==> IsTxValid(c, txs[1..][i]) == Ok(true);
          assert IsTxValid(c, txs[k' + 1]) != Ok(true) && forall i :: 0 <= i < k' + 1 ==> IsTxValid(c, txs[i]) == Ok(true);
          rest
        else rest
  }

  // ---------------------------------------------------------------------
  // Assumptions about the signature scheme (stated, not properties of the
  // engine) and what the engine guarantees under them.

  /** A signature produced by a key verifies under that key's public hex
      for the signed digest, and is never empty. */
  ghost predicate SignaturesVerify(c: Primitives) {
    forall k, h :: c.verify(c.publicHex(k), h, c.sign(k, h)) && |c.sign(k, h)| > 0
  }

  /** A signature of one digest does not verify for a different digest. */
  ghost predicate Unforgeable(c: Primitives) {
    forall k, h, h' :: c.verify(c.publicHex(k), h', c.sign(k, h)) ==> h' == h
  }

  /** The transaction digest is collision free. A collision-resistant hash
      of an unambiguous encoding of the four fields has this property; the
      source's unseparated concatenation does not (module Findings). */
  ghost predicate TxDigestInjective(c: Primitives) {
    forall f, t, a, s, f', t', a', s' ::
      c.txDigest(f, t, a, s) == c.txDigest(f', t', a', s') ==> f == f' && t == t' && a == a' && s == s'
  }

  /** Signing never disturbs the stored hash's agreement with the fields. */
  lemma SigningKeepsHash(c: Primitives, tx: Transaction, key: SigningKey)
    requires HashConsistent(c, tx)
    requires SignTransaction(c, tx, key).Ok?
    ensures HashConsistent(c, SignTransaction(c, tx, key).value)
    ensures SignTransaction(c, tx, key).value.transactionHash == tx.transactionHash
  {
  }

  /** A reward is valid whatever its signature slot holds. */
  lemma RewardAlwaysValid(c: Primitives, tx: Transaction, sig: Option<string>)
    requires tx.addressFrom.Null?
    ensures IsTxValid(c, tx.(signature := sig)) == Ok(true)
  {
  }

  /** Under a sound scheme, a transfer signed by its owner is valid. */
  lemma SignedTransferIsValid(c: Primitives, tx: Transaction, key: SigningKey)
    requires SignaturesVerify(c)
    requires SignTransaction(c, tx, key).Ok?
    ensures IsTxValid(c, SignTransaction(c, tx, key).value) == Ok(true)
  {
  }

  /** Under an unforgeable scheme and a collision-free digest, changing the
      recipient, the amount or the timestamp of a signed transfer makes it
      invalid: the digest is recomputed from the new fields and the old
      signature no longer fits. */
  lemma TamperedTransferIsInvalid(c: Primitives, tx: Transaction, key: SigningKey,
                                  to: Addr, amount: int, timestamp: int)
    requires Unforgeable(c) && TxDigestInjective(c)
    requires SignTransaction(c, tx, key).Ok?
    requires to != tx.addressTo || amount != tx.amount || timestamp != tx.timestamp
    requires |c.sign(key, CalculateTxHash(c, tx))| > 0
    ensures IsTxValid(c, SignTransaction(c, tx, key).value.(addressTo := to, amount := amount, timestamp := timestamp))
            == Ok(false)
  {
    var signed := SignTransaction(c, tx, key).value;
    var forged := signed.(addressTo := to, amount := amount, timestamp := timestamp);
    assert CalculateTxHash(c, forged) != CalculateTxHash(c, tx);
  }
}
